=== FILE: README.md ===
# Columnar cell cursor, health-check severity and query telemetry gating

This project models three small, sequential pieces of the MongoDB server and proves properties about them in Dafny:

- **`TranslatedCell`** (`columnar.dfy`, module `Columnar`): a consume-once cursor over a columnar-index cell in SBE form. The cell holds two parallel vectors, type tags and 64-bit values, and an index. `NextValue` hands out the current pair, blanks its slot to `(Nothing, 0)` and advances. `MoreValues` reports whether any values remain. The cell is an immutable datatype, so `NextValue` returns the pair together with the updated cell. `Drain` calls `NextValue` while `MoreValues` holds.
- **`HealthCheckStatus`** (`health_check_status.dfy`, module `ProcessHealth`): the immutable status a fault facet reports: facet type, severity and short description. It comes with the three severity bands (resolved, transient fault, active fault) and the `type`/`description`/`severity` description document. Severity is a `real`.
- **Query telemetry** (`telemetry_keys.dfy`, `telemetry_store.dfy`, `fle_payload.dfy`, with BSON values in `bson.dfy`):
  - the decision chain of the three `shouldCollectTelemetry` overloads and of `shouldCollect`/`isTelemetryEnabled`;
  - the shapes of the aggregate and find telemetry keys;
  - the per-element FLE payload check;
  - `collectTelemetry`, modelled as get-or-insert on a map from key to metrics followed by metric updates;
  - the store manager's reset, modelled as a swap.

Parameters and inputs of the model:
- Redaction of a sub-document (`BSONObj::redact`) is a parameter of type `Redactor`.
- The rate limiter's sliding window (`RateLimiting::handleRequestSlidingWindow`) is a parameter `slide` over an abstract window state `W`. Whether it was consulted shows in the returned window state.
- `NamespaceString::isFLE2StateCollection`, `FindCommandRequest::toBSON`, the request's encryption information and read concern, and the client's application name (`ClientMetadata`) are inputs.
- `toFaultFacetType` is a function parameter.

Three constants are not defined in the files modelled and are taken from their own sources:
- BSON binary subtype 6 is encrypted data, from the BSON specification's binary subtype table.
- The deterministic tag is 1, from the client-side encryption (FLE1) payload format.
- 10065 is the location code of `BSONElement`'s own check that an element holds an object or array; `bsonelement.h` is not part of this model.

The find key is built by appending each serialised field to the outer builder while the `find` sub-builder is still open. Both builders write into one buffer, so those fields end up inside the `find` sub-document. `FindKey` models it that way.

## Model

| member | source | states |
|---|---|---|
| Columnar.NextValue | src/mongo/db/exec/sbe/values/columnar.h:53-60 | Needs the cursor below the end of both vectors. It returns the pair as it stood before the call, then blanks that slot to (Nothing, 0) and advances the cursor by exactly one. All other slots, both lengths, arrInfo and path are unchanged. The pair returned is the first of the remaining pairs, and the rest remain afterwards. |
| Columnar.MoreValuesIffRemaining | src/mongo/db/exec/sbe/values/columnar.h:62-64 | For a valid cell, moreValues holds exactly when at least one pair remains to be handed out. |
| Columnar.Drain | src/mongo/db/exec/sbe/values/columnar.h:53-64 | Calling nextValue while moreValues holds yields every pair from the starting index to the end exactly once, in index order. It takes exactly \|vals\| - idx calls and ends with moreValues false. Every consumed slot is blank; earlier slots, arrInfo and path are untouched. |
| ProcessHealth.Classify | src/mongo/db/process_health/health_check_status.h:99-110 | Each severity falls in exactly one band. Resolved is severity <= 0, transient fault is 0 < severity < 1 with both ends exclusive, and active fault is severity >= 1, so the three predicates partition the real line. |
| ProcessHealth.BandBoundaries | src/mongo/db/process_health/health_check_status.h:47-49 | 0 is resolved and neither transient nor active. 1.0 is an active fault (the inclusive bound) and neither transient nor resolved. Exactly the severities strictly between 0 and 1 are transient faults. |
| ProcessHealth.ClassifyMonotone | src/mongo/db/process_health/health_check_status.h:99-110 | A higher severity never falls into a lower band: the bands are ordered resolved < transient < active along the severity line. |
| ProcessHealth.NewStatus | src/mongo/db/process_health/health_check_status.h:56-57 | The three-argument constructor: getType, getSeverity and getShortDescription return exactly the arguments. The instance isActiveFault holds exactly when the severity is at least 1. |
| ProcessHealth.ResolvedStatus | src/mongo/db/process_health/health_check_status.h:59-61 | The facet-type constructor gives that facet with severity 0 and description "resolved". The result is in the resolved band and is not an active fault. |
| ProcessHealth.ResolvedObserverStatus | src/mongo/db/process_health/health_check_status.h:63-64 | The observer-type constructor gives the converted facet with severity 0 and description "resolved". The result is resolved and not an active fault. |
| ProcessHealth.AppendDescription | src/mongo/db/process_health/health_check_status.h:126-130 | Keeps what the builder already holds. It appends exactly three fields, type, description and severity in that order, carrying the facet type, description and severity. |
| ProcessHealth.DescriptionRoundTrip | src/mongo/db/process_health/health_check_status.h:144-148 | Reading the type, description and severity fields back from a status's description document gives the same status. |
| FlePayload.CheckAsWritten | src/mongo/db/query/telemetry.cpp:197-218 | The check as written raises the FLE payload error exactly when a uassert condition is false. An object passes only if named __safeContent__ or prefixed $_internalFle. A string passes only if it equals $__safeContent__. An encrypted BinData passes only if longer than one byte with byte 1 not the deterministic tag. Anything else passes. |
| FlePayload.AsWrittenRejectsPlainObject | src/mongo/db/query/telemetry.cpp:200-205 | The element {a: {}} shows no FLE2 marker, yet the check as written raises on it. |
| FlePayload.Check | src/mongo/db/query/telemetry.cpp:197-218 | The corrected check raises the FLE payload error exactly on an element showing an FLE2 rewrite, or on an encrypted payload the FLE1 test rejects. An FLE2 rewrite is an object named as a marker, or the $__safeContent__ string. |
| FlePayload.AsWrittenInvertsObjectAndStringChecks | src/mongo/db/query/telemetry.cpp:200-210 | On object and string elements, the check as written passes exactly where the corrected check raises. On all other elements the two agree. |
| FlePayload.CheckDocument | src/mongo/db/query/telemetry.cpp:196-197 | Run on every element of a document, nested documents included, the check raises only the FLE payload error. It raises exactly when some element, or some element of a nested document, fails the check. |
| FlePayload.CheckingRedactorFailsOnPayload | src/mongo/db/query/telemetry.cpp:196-197 | Redaction that runs the check fails exactly on documents the check rejects, and only with the FLE payload error. Otherwise it returns the redacted document. |
| FlePayload.AggregateWithFlePayloadHasNoKey | src/mongo/db/query/telemetry.cpp:239-256 | With the checking redactor, an aggregate whose stage carries an FLE payload in its spec gets no key, when every stage up to it is well formed. The first stage to fail fails with the FLE payload error, which is caught. |
| FlePayload.FindWithCheckingRedactorNeverFails | src/mongo/db/query/telemetry.cpp:276-298 | With the checking redactor, the find overload never returns an error: the only error building its key can raise is the FLE payload error, and that one is caught. |
| FlePayload.FindWithFlePayloadHasNoKey | src/mongo/db/query/telemetry.cpp:278-297 | With the checking redactor, a find request with a document field that carries an FLE payload gets no key. The error is caught; it does not propagate. |
| TelemetryKeys.ShouldCollect | src/mongo/db/query/telemetry.cpp:168-187 | With sampling rate <= 0 the answer is no and the sliding window is not consulted; its state is unchanged. Otherwise the answer is the window's verdict and the window advances. The sampling rate never changes. |
| TelemetryKeys.StageEntry | src/mongo/db/query/telemetry.cpp:240-245 | A stage that is empty, or whose first element is not a document, raises uassert 10065. Otherwise, if redacting the first element's document succeeds, the stage becomes {stage: {name: redacted spec}}. If redaction raises, that error passes through unchanged. |
| TelemetryKeys.FindEntry | src/mongo/db/query/telemetry.cpp:280-286 | A find field keeps its name. If its value is an object or array, the value becomes the redacted document and redaction errors pass through. Any other value becomes the string "###". |
| TelemetryKeys.ContextFields | src/mongo/db/query/telemetry.cpp:247-253 | A key ends with namespace, then readConcern when the request has one, then applicationName when the client sent metadata, in that order and nothing else. |
| TelemetryKeys.AggregateKey | src/mongo/db/query/telemetry.cpp:237-257 | The aggregate key is a pipeline array with one entry per stage, in order, followed by the context fields. It fails exactly when some stage fails, with the error of the first stage that fails; every earlier stage succeeded. |
| TelemetryKeys.FindKey | src/mongo/db/query/telemetry.cpp:276-298 | The find key is a find document with one entry per serialised field, in order, followed by the context fields. It fails exactly when redacting some document field fails, with the error of the first field that fails; every earlier field succeeded. |
| TelemetryKeys.FindKeyErasesLiterals | src/mongo/db/query/telemetry.cpp:280-286 | Two find requests that differ only in the values of their non-document fields get the same key. |
| TelemetryKeys.CatchFlePayload | src/mongo/db/query/telemetry.cpp:295-297 | An FLE payload error while building a key gives no key. Any other error propagates unchanged, and a built key is returned. |
| TelemetryKeys.ShouldCollectAggregate | src/mongo/db/query/telemetry.cpp:222-258 | A request with encryption information, or on an FLE2 state collection, gets no key and leaves the rate limiter untouched. Otherwise the rate limiter always ends in the state shouldCollect leaves it in. A key comes back exactly when both checks pass, the rate limiter allows it and the key builds. An error comes back exactly when both checks pass, the rate limiter allows it and the build fails with an error other than the FLE payload one; that error propagates unchanged, and an FLE payload error gives no key. |
| TelemetryKeys.ShouldCollectFind | src/mongo/db/query/telemetry.cpp:260-299 | The same gating as the aggregate overload, applied to the find request and the collection's namespace: a key comes back exactly when both checks pass, the rate limiter allows it and the find key builds. An error comes back exactly when those checks pass, the rate limiter allows it and the build fails with an error other than the FLE payload one. |
| TelemetryKeys.ShouldCollectKey | src/mongo/db/query/telemetry.cpp:301-307 | An empty key gives none without consulting the rate limiter. Otherwise the rate limiter is consulted, ending in the state shouldCollect leaves it in, and the key comes back unchanged exactly when it allows it. |
| TelemetryStore.ResetTelemetryStore | src/mongo/db/query/telemetry.cpp:91-97 | Returns the previously installed store. Installs a store with the same size and partition count and no entries. |
| TelemetryStore.CollectTelemetry | src/mongo/db/query/telemetry.cpp:318-350 | The key gets an entry, created with default metrics if absent; entries for other keys and the store's size and partitions are untouched. execCount grows by one and planning time is aggregated exactly when isExec. lastExecutionMicros becomes the execution time. Missing docsExamined and keysExamined are aggregated as 0. |
| TelemetryStore.CollectAllCounts | src/mongo/db/query/telemetry.cpp:318-350 | After any sequence of collections, the store has exactly the keys it had plus the keys collected. Each key's execCount has grown by the number of isExec collections under that same key. Keys are compared by their whole BSON content, scalar values included. |
| TelemetryStore.DistinctKeysCountedApart | src/mongo/db/query/telemetry.cpp:324-332 | Collecting once under each of two different keys into an empty store leaves two entries, each with execCount 1. |
| TelemetryStore.ReadConcernTimestampsGiveDistinctKeys | src/mongo/db/query/telemetry.cpp:289-291 | Two keys whose read concerns differ only in a timestamp's value are different keys, since the read concern is copied into the key unredacted. |
| TelemetryStore.ResetReturnsCollected | src/mongo/db/query/telemetry.cpp:91-97 | A reset after a run of collections into a fresh store returns exactly the keys collected, each with its execution count. The store left installed is fresh with the same size and partition count. |

## Left out

- Locking in the telemetry store manager (shared and exclusive locks, `LockerImpl`) and the store's partition locks: reads, collections and resets are single sequential steps.
- The telemetry store's partitioned cache, eviction and memory budget, including the `tassert` that fires when a new entry does not fit: the store is an unbounded map, so an inserted entry is always found again.
- How each aggregated metric summarises its samples: a metric keeps the sequence of samples aggregated into it.
- The service-context decorations, the constructor registerer (memory-size parsing and capping, the partition count of 100), `updateCacheSize` and logging: initialisation and I/O.
- `getTelemetryStoreForRead` is not a separate member: `CollectTelemetry` reads the manager's current store directly.
- `addCellToObject`: only its declaration is part of the source shown.
- `toString`, `toBSON` and the stream operators of `HealthCheckStatus`: formatting built on `appendDescription`, which is modelled. The encoding of the facet type in BSON is not part of this model.
- Severity as a double: NaN, rounding, and the unused `kActiveFaultSeverityEpsilon` constant.
- The sharding task executor and the killCursors command: thread-pool delegation and command plumbing with no local logic.
- `addToFindKey`: defined in src/mongo/db/query/telemetry.cpp:192-194 but called by none of the key builders.
- Columnar.NextValue: also requires the cursor to be inside `types`. The source checks only `vals`, and reading `types` past its end is undefined behaviour.
- TelemetryStore.CollectTelemetry: execCount is unbounded and does not model the 64-bit counter's wrap-around, which would need 2^64 executions of one key.
- The `redact(false)` calls in the key builders do not run the FLE payload check. The model keeps redaction a parameter. The checking redactor shows the combination that the comment at src/mongo/db/query/telemetry.cpp:196 describes.

## Findings

| source | as written | input that shows it | evidently intended | confidence | as-written member | corrected member |
|---|---|---|---|---|---|---|
| src/mongo/db/query/telemetry.cpp:200-210 | The object branch raises unless the field name is `__safeContent__` or starts with `$_internalFle`. The string branch raises unless the value is `$__safeContent__`. So every ordinary object or string element raises, and the markers pass. | the element `{a: {}}` raises `EncounteredFLEPayloadWhileRedacting` | raise exactly on the markers, as the error messages say | medium; not executed | FlePayload.CheckAsWritten, FlePayload.AsWrittenRejectsPlainObject | FlePayload.Check |

=== FILE: bson.dfy ===
/**
 * BSON documents as far as the telemetry code looks into them: named
 * fields holding objects, arrays, strings, binary data or any other scalar.
 */
module Bson {

  newtype Byte = x: int | 0 <= x < 256

  /** Binary subtype of client-side encrypted values (BSON binary subtype 6). */
  const EncryptSubtype: nat := 6

  /**
   * A BSON value. An array is stored, as BSON stores it, as a document whose
   * field names are the element positions. `Scalar` stands for every other
   * type (numbers, dates, timestamps, booleans, ...): its BSON type code and
   * the bytes of its value, so two documents are equal exactly when their
   * BSON contents are.
   */
  datatype Value =
    | Object(fields: seq<Field>)
    | Array(elements: seq<Field>)
    | Str(text: string)
    | BinData(subtype: nat, data: seq<Byte>)
    | Scalar(typeCode: nat, payload: seq<Byte>)

  /** A BSON element: a field name and its value. */
  datatype Field = Field(name: string, value: Value)

  type Doc = seq<Field>

  /** Errors raised while building a telemetry key. */
  datatype ErrorCode =
    | EncounteredFLEPayloadWhileRedacting
      /** Any other `uassert`, identified by its location code. */
    | Location(code: nat)

  /** Location code of the check that an element read as an object really holds an object or an array. */
  const ExpectedObjectLocation: nat := 10065

  /** Whether the element's value is a document: an object or an array. */
  predicate IsABSONObj(v: Value) {
    v.Object? || v.Array?
  }

  /** The document embedded in an object or array value. */
  function EmbeddedDoc(v: Value): (d: Doc)
    requires IsABSONObj(v)
    ensures v == Object(d) || v == Array(d)
  {
    if v.Object? then v.fields else v.elements
  }

  predicate StartsWith(s: string, prefix: string) {
    |prefix| <= |s| && s[..|prefix|] == prefix
  }
}

=== FILE: columnar.dfy ===
/**
 * A cell of a columnar index translated into SBE values: two parallel vectors
 * of type tags and 64-bit payloads, read once each through a cursor `idx`.
 */
module Columnar {

  /** An SBE type tag. Only `Nothing` is named by the cursor; every other tag is kept abstract. */
  datatype TypeTag = Nothing | Tagged(code: nat)

  /** The 64-bit payload of an SBE value. */
  newtype Value = x: int | 0 <= x < 0x1_0000_0000_0000_0000

  /** One translated value: its tag and its payload. */
  type TaggedValue = (TypeTag, Value)

  datatype TranslatedCell = TranslatedCell(
    arrInfo: string,
    path: string,
    types: seq<TypeTag>,
    vals: seq<Value>,
    idx: nat)
  {
    /** The shape every translated cell keeps: parallel vectors and a cursor that never passes their end. */
    predicate Valid() {
      |types| == |vals| && idx <= |vals|
    }

    /** True while the cursor has not consumed every value. */
    predicate MoreValues() {
      idx < |vals|
    }
  }

  /** The pairs the cursor of `c` has still to hand out, in index order. */
  function Remaining(c: TranslatedCell): seq<TaggedValue>
    requires c.Valid()
  {
    seq(|c.vals| - c.idx, k requires 0 <= k < |c.vals| - c.idx => (c.types[c.idx + k], c.vals[c.idx + k]))
  }

  /** A valid cell has more values exactly when some pair remains to be handed out. */
  lemma MoreValuesIffRemaining(c: TranslatedCell)
    requires c.Valid()
    ensures c.MoreValues() <==> |Remaining(c)| > 0
  {
  }

  /**
   * Hands out the value under the cursor, blanks its slot to `(Nothing, 0)`
   * and advances the cursor by one. Nothing else in the cell changes, and the
   * pair handed out is the first of the remaining ones.
   */
  function NextValue(c: TranslatedCell): (r: (TaggedValue, TranslatedCell))
    requires c.idx < |c.vals|
    requires c.idx < |c.types|
    ensures r.0 == (c.types[c.idx], c.vals[c.idx])
    ensures r.1.idx == c.idx + 1
    ensures |r.1.types| == |c.types| && |r.1.vals| == |c.vals|
    ensures r.1.types[c.idx] == Nothing && r.1.vals[c.idx] == 0
    ensures forall j | 0 <= j < |c.vals| && j != c.idx :: r.1.vals[j] == c.vals[j]
    ensures forall j | 0 <= j < |c.types| && j != c.idx :: r.1.types[j] == c.types[j]
    ensures r.1.arrInfo == c.arrInfo && r.1.path == c.path
    ensures c.Valid() ==> r.1.Valid() && [r.0] + Remaining(r.1) == Remaining(c)
  {
    var ret := (c.types[c.idx], c.vals[c.idx]);
    var next := c.(vals := c.vals[c.idx := 0], types := c.types[c.idx := Nothing], idx := c.idx + 1);
    assert c.Valid() ==> [ret] + Remaining(next) == Remaining(c) by {
      if c.Valid() {
        forall k | 0 <= k < |Remaining(c)| ensures ([ret] + Remaining(next))[k] == Remaining(c)[k] {
          if k > 0 {
            assert ([ret] + Remaining(next))[k] == Remaining(next)[k - 1];
          }
        }
      }
    }
    (ret, next)
  }

  /**
   * Drains a valid cell by calling `NextValue` while `MoreValues` holds.
   * Every remaining pair is handed out exactly once, in index order, after
   * exactly `|vals| - idx` calls; afterwards no values remain and every
   * consumed slot is blank, while the slots before the starting cursor,
   * `arrInfo` and `path` are as they were.
   */
  method Drain(c: TranslatedCell) returns (out: seq<TaggedValue>, calls: nat, final: TranslatedCell)
    requires c.Valid()
    ensures out == Remaining(c)
    ensures calls == |c.vals| - c.idx
    ensures final.Valid() && !final.MoreValues()
    ensures |final.vals| == |c.vals|
    ensures forall j | c.idx <= j < |c.vals| :: final.types[j] == Nothing && final.vals[j] == 0
    ensures forall j | 0 <= j < c.idx :: final.types[j] == c.types[j] && final.vals[j] == c.vals[j]
    ensures final.arrInfo == c.arrInfo && final.path == c.path
  {
    var cur := c;
    out := [];
    calls := 0;
    while cur.MoreValues()
      invariant cur.Valid() && |cur.vals| == |c.vals|
      invariant cur.idx == c.idx + calls
      invariant out + Remaining(cur) == Remaining(c)
      invariant forall j | c.idx <= j < cur.idx :: cur.types[j] == Nothing && cur.vals[j] == 0
      invariant forall j | 0 <= j < c.idx :: cur.types[j] == c.types[j] && cur.vals[j] == c.vals[j]
      invariant cur.arrInfo == c.arrInfo && cur.path == c.path
      decreases |cur.vals| - cur.idx
    {
      var (p, next) := NextValue(cur);
      out := out + [p];
      calls := calls + 1;
      cur := next;
    }
    final := cur;
  }
}

=== FILE: fle_payload.dfy ===
/**
 * The per-element check meant to stop a telemetry key from being built out
 * of a query that Queryable Encryption (FLE2) has rewritten or that carries
 * a deterministic client-side encryption (FLE1) payload.
 *
 * `CheckAsWritten` follows the three `uassert` conditions literally; on
 * object and string elements they hold for the marker and fail for
 * everything else, the opposite of what their messages announce.
 * `Check` is the corrected check, which raises on the markers.
 */
module FlePayload {
  import opened Wrappers
  import opened Bson
  import opened TelemetryKeys

  /** Field name under which FLE2 keeps its tag array. */
  const SafeContentLabel: string := "__safeContent__"

  /** The field path an FLE2 rewrite uses to refer to the tag array. */
  const SafeContentFieldPath: string := "$__safeContent__"

  /** Name prefix of the internal operators an FLE2 rewrite introduces. */
  const InternalFlePrefix: string := "$_internalFle"

  /** `EncryptedBinDataType::kDeterministic` of the FLE1 payload format. */
  const Deterministic: Byte := 1

  /** An object element whose name is one of the FLE2 rewrite markers. */
  predicate IsFle2MarkerName(name: string) {
    name == SafeContentLabel || StartsWith(name, InternalFlePrefix)
  }

  /**
   * An encrypted binary element that does not pass the FLE1 test: it is at
   * most one byte long, or its byte at offset 1 is the deterministic tag.
   */
  predicate IsRejectedEncryptedPayload(e: Field) {
    e.value.BinData? && e.value.subtype == EncryptSubtype
    && !(|e.value.data| > 1 && e.value.data[1] != Deterministic)
  }

  /** An element that shows an FLE2 rewrite: a marker-named object, or the safe-content field path as a string. */
  predicate ShowsFle2Rewrite(e: Field) {
    || (e.value.Object? && IsFle2MarkerName(e.name))
    || (e.value.Str? && e.value.text == SafeContentFieldPath)
  }

  /** The check exactly as written: each branch raises when its `uassert` condition is false. */
  function CheckAsWritten(e: Field): (r: Outcome<ErrorCode>)
    ensures r.Fail? ==> r.error == EncounteredFLEPayloadWhileRedacting
    ensures e.value.Object? ==> (r.Pass? <==> ShowsFle2Rewrite(e))
    ensures e.value.Str? ==> (r.Pass? <==> ShowsFle2Rewrite(e))
    ensures e.value.BinData? ==> (r.Fail? <==> IsRejectedEncryptedPayload(e))
    ensures e.value.Array? || e.value.Scalar? ==> r.Pass?
  {
    match e.value
    case Object(_) =>
      if e.name == SafeContentLabel || StartsWith(e.name, InternalFlePrefix) then Pass
      else Fail(EncounteredFLEPayloadWhileRedacting)
    case Str(val) =>
      if val == SafeContentFieldPath then Pass else Fail(EncounteredFLEPayloadWhileRedacting)
    case BinData(subtype, data) =>
      if subtype == EncryptSubtype && !(|data| > 1 && data[1] != Deterministic)
      then Fail(EncounteredFLEPayloadWhileRedacting)
      else Pass
    case _ => Pass
  }

  /**
   * As written, an ordinary query element is rejected: the object `{a: {}}`
   * names no FLE2 marker, yet the check raises on it.
   */
  lemma AsWrittenRejectsPlainObject()
    ensures !ShowsFle2Rewrite(Field("a", Object([])))
    ensures CheckAsWritten(Field("a", Object([]))) == Fail(EncounteredFLEPayloadWhileRedacting)
  {
    assert !StartsWith("a", InternalFlePrefix);
  }

  /** The corrected check: raises exactly on an FLE2 rewrite marker or a rejected encrypted payload. */
  function Check(e: Field): (r: Outcome<ErrorCode>)
    ensures r.Fail? ==> r.error == EncounteredFLEPayloadWhileRedacting
    ensures r.Fail? <==> ShowsFle2Rewrite(e) || IsRejectedEncryptedPayload(e)
  {
    match e.value
    case Object(_) =>
      if e.name == SafeContentLabel || StartsWith(e.name, InternalFlePrefix)
      then Fail(EncounteredFLEPayloadWhileRedacting)
      else Pass
    case Str(val) =>
      if val == SafeContentFieldPath then Fail(EncounteredFLEPayloadWhileRedacting) else Pass
    case BinData(subtype, data) =>
      if subtype == EncryptSubtype && !(|data| > 1 && data[1] != Deterministic)
      then Fail(EncounteredFLEPayloadWhileRedacting)
      else Pass
    case _ => Pass
  }

  /**
   * The two checks agree on binary data, arrays and other scalars, and give
   * opposite verdicts on every object and every string element.
   */
  lemma AsWrittenInvertsObjectAndStringChecks(e: Field)
    ensures e.value.Object? || e.value.Str? ==> (CheckAsWritten(e).Pass? <==> Check(e).Fail?)
    ensures !(e.value.Object? || e.value.Str?) ==> CheckAsWritten(e) == Check(e)
  {
  }

  /**
   * The corrected check applied to every element of a document, nested
   * documents included, stopping at the first element that raises.
   */
  function CheckDocument(fields: Doc): (r: Outcome<ErrorCode>)
    ensures r.Fail? ==> r.error == EncounteredFLEPayloadWhileRedacting
    ensures r.Fail? <==> exists i | 0 <= i < |fields| ::
      Check(fields[i]).Fail? || (IsABSONObj(fields[i].value) && CheckDocument(EmbeddedDoc(fields[i].value)).Fail?)
    decreases fields
  {
    if |fields| == 0 then Pass
    else if Check(fields[0]).Fail? then Check(fields[0])
    else if IsABSONObj(fields[0].value) && CheckDocument(EmbeddedDoc(fields[0].value)).Fail? then
      CheckDocument(EmbeddedDoc(fields[0].value))
    else
      var rest := CheckDocument(fields[1..]);
      assert rest.Fail? <==> exists i | 1 <= i < |fields| ::
        Check(fields[i]).Fail? || (IsABSONObj(fields[i].value) && CheckDocument(EmbeddedDoc(fields[i].value)).Fail?) by {
        forall i | 1 <= i < |fields| ensures fields[1..][i - 1] == fields[i] { }
      }
      rest
  }

  /**
   * Redaction that first runs the check over the whole document, as the
   * check is meant to run on every element redaction visits; `redact` is the
   * redaction proper, which itself never raises.
   */
  function CheckingRedactor(redact: Doc -> Doc): Redactor {
    (d: Doc) => match CheckDocument(d)
      case Fail(e) => Failure(e)
      case Pass => Success(redact(d))
  }

  /** The checking redactor raises only the FLE payload error, and only on a document the check rejects. */
  lemma CheckingRedactorFailsOnPayload(redact: Doc -> Doc, d: Doc)
    ensures CheckingRedactor(redact)(d).Failure? <==> CheckDocument(d).Fail?
    ensures CheckingRedactor(redact)(d).Failure? ==> CheckingRedactor(redact)(d).error == EncounteredFLEPayloadWhileRedacting
    ensures CheckingRedactor(redact)(d).Success? ==> CheckingRedactor(redact)(d).value == redact(d)
  {
  }

  /**
   * With the checking redactor, a find request never fails: the only error
   * its key building can raise is the FLE payload error, which is caught.
   */
  lemma {:induction false} FindWithCheckingRedactorNeverFails<W>(
    request: FindCommandRequest, collection: NamespaceString, opCtx: OperationContext,
    rl: RateLimiter<W>, slide: SlidingWindow<W>, redact: Doc -> Doc)
    ensures ShouldCollectFind(request, collection, opCtx, rl, slide, CheckingRedactor(redact)).0.Success?
  {
    var redactor := CheckingRedactor(redact);
    var key := FindKey(request, collection, opCtx, redactor);
    if key.Failure? {
      var j :| 0 <= j < |request.serialized| && FindEntry(request.serialized[j], redactor) == Failure(key.error);
      assert IsABSONObj(request.serialized[j].value);
      CheckingRedactorFailsOnPayload(redact, EmbeddedDoc(request.serialized[j].value));
    }
  }

  /**
   * With the checking redactor, a find request with a document field in
   * which the check finds an FLE payload gets no key.
   */
  lemma {:induction false} FindWithFlePayloadHasNoKey<W>(
    request: FindCommandRequest, collection: NamespaceString, opCtx: OperationContext,
    rl: RateLimiter<W>, slide: SlidingWindow<W>, redact: Doc -> Doc, i: nat)
    requires i < |request.serialized| && IsABSONObj(request.serialized[i].value)
    requires CheckDocument(EmbeddedDoc(request.serialized[i].value)).Fail?
    ensures ShouldCollectFind(request, collection, opCtx, rl, slide, CheckingRedactor(redact)).0 == Success(None)
  {
    var redactor := CheckingRedactor(redact);
    var key := FindKey(request, collection, opCtx, redactor);
    assert FindEntry(request.serialized[i], redactor).Failure?;
    if key.Failure? {
      var j :| 0 <= j < |request.serialized| && FindEntry(request.serialized[j], redactor) == Failure(key.error);
      assert IsABSONObj(request.serialized[j].value);
      CheckingRedactorFailsOnPayload(redact, EmbeddedDoc(request.serialized[j].value));
    }
  }

  /** A pipeline stage whose first element holds a document, so that its spec reaches redaction. */
  predicate IsWellFormedStage(stage: Doc) {
    |stage| > 0 && IsABSONObj(stage[0].value)
  }

  /**
   * With the checking redactor, an aggregate whose stage `i` carries an FLE
   * payload in its spec gets no key, provided every stage up to `i` is well
   * formed: the first stage that fails then fails with the FLE payload
   * error, which is caught.
   */
  lemma {:induction false} AggregateWithFlePayloadHasNoKey<W>(
    request: AggregateCommandRequest, opCtx: OperationContext,
    rl: RateLimiter<W>, slide: SlidingWindow<W>, redact: Doc -> Doc, i: nat)
    requires i < |request.pipeline|
    requires forall j | 0 <= j < i :: IsWellFormedStage(request.pipeline[j])
    requires IsWellFormedStage(request.pipeline[i])
    requires CheckDocument(EmbeddedDoc(request.pipeline[i][0].value)).Fail?
    ensures ShouldCollectAggregate(request, opCtx, rl, slide, CheckingRedactor(redact)).0 == Success(None)
  {
    var redactor := CheckingRedactor(redact);
    var key := AggregateKey(request, opCtx, redactor);
    CheckingRedactorFailsOnPayload(redact, EmbeddedDoc(request.pipeline[i][0].value));
    assert StageEntry(request.pipeline[i], redactor).Failure?;
    if key.Failure? {
      var j :| 0 <= j < |request.pipeline| && StageEntry(request.pipeline[j], redactor) == Failure(key.error)
        && forall k | 0 <= k < j :: StageEntry(request.pipeline[k], redactor).Success?;
      assert j <= i;
      CheckingRedactorFailsOnPayload(redact, EmbeddedDoc(request.pipeline[j][0].value));
    }
  }
}

=== FILE: health_check_status.dfy ===
/**
 * The immutable status of a fault tracked by a health-check facet, and the
 * three severity bands a status falls into: resolved, transient fault and
 * active fault. Severity is a `real`; the double's rounding and NaN are not
 * modelled.
 */
module ProcessHealth {
  import opened Wrappers

  /** The facet a status belongs to; the enumeration itself is kept abstract. */
  datatype FaultFacetType = FaultFacetType(id: nat)

  /** The kind of health observer that produced a status; kept abstract like the facet type. */
  datatype HealthObserverType = HealthObserverType(id: nat)

  /** Severity of a status that reports no fault. */
  const ResolvedSeverity: real := 0.0

  /** Lowest severity of an active fault; the active range [1, infinity) includes it. */
  const ActiveFaultSeverity: real := 1.0

  /** The description every resolved status carries. */
  const ResolvedDescription: string := "resolved"

  datatype HealthCheckStatus = HealthCheckStatus(facetType: FaultFacetType, severity: real, description: string)
  {
    /** The instance overload of the active-fault test: the static test applied to this status's severity. */
    predicate IsActive() {
      IsActiveFault(severity)
    }
  }

  predicate IsResolved(severity: real) {
    severity <= ResolvedSeverity
  }

  predicate IsTransientFault(severity: real) {
    severity > ResolvedSeverity && severity < ActiveFaultSeverity
  }

  /** The active range is inclusive: it compares against the literal 1.0. */
  predicate IsActiveFault(severity: real) {
    severity >= 1.0
  }

  /** The three severity bands, in increasing order. */
  datatype SeverityBand = Resolved | TransientFault | ActiveFault

  /**
   * Reference classification of a severity, read from the top of the scale
   * down. Each band is chosen exactly when its predicate holds, so the three
   * predicates partition the real line.
   */
  function Classify(severity: real): (band: SeverityBand)
    ensures band == Resolved <==> IsResolved(severity)
    ensures band == TransientFault <==> IsTransientFault(severity)
    ensures band == ActiveFault <==> IsActiveFault(severity)
  {
    if severity >= ActiveFaultSeverity then ActiveFault
    else if severity > ResolvedSeverity then TransientFault
    else Resolved
  }

  /** Position of a band on the severity scale. */
  function Rank(band: SeverityBand): nat {
    match band
    case Resolved => 0
    case TransientFault => 1
    case ActiveFault => 2
  }

  /** A higher severity never falls into a lower band. */
  lemma ClassifyMonotone(s: real, t: real)
    requires s <= t
    ensures Rank(Classify(s)) <= Rank(Classify(t))
  {
  }

  /**
   * The band boundaries: 0 is resolved, 1 is an active fault, and everything
   * strictly between them is a transient fault.
   */
  lemma BandBoundaries(s: real)
    ensures IsResolved(0.0) && !IsTransientFault(0.0) && !IsActiveFault(0.0)
    ensures IsActiveFault(1.0) && !IsTransientFault(1.0) && !IsResolved(1.0)
    ensures 0.0 < s < 1.0 <==> IsTransientFault(s)
  {
  }

  /** The three-argument constructor: the getters return exactly the arguments. */
  function NewStatus(facetType: FaultFacetType, severity: real, description: string): (st: HealthCheckStatus)
    ensures st.facetType == facetType && st.severity == severity && st.description == description
    ensures st.IsActive() <==> severity >= ActiveFaultSeverity
  {
    HealthCheckStatus(facetType, severity, description)
  }

  /** The single-argument constructor from a facet type: a resolved status. */
  function ResolvedStatus(facetType: FaultFacetType): (st: HealthCheckStatus)
    ensures st.facetType == facetType
    ensures st.severity == ResolvedSeverity && st.description == ResolvedDescription
    ensures Classify(st.severity) == Resolved && !st.IsActive()
  {
    HealthCheckStatus(facetType, 0.0, "resolved")
  }

  /**
   * The single-argument constructor from an observer type, converted by
   * `toFaultFacetType` (a conversion defined outside this model): a resolved
   * status of the converted facet.
   */
  function ResolvedObserverStatus(
    observer: HealthObserverType,
    toFaultFacetType: HealthObserverType -> FaultFacetType): (st: HealthCheckStatus)
    ensures st.facetType == toFaultFacetType(observer)
    ensures st.severity == ResolvedSeverity && st.description == ResolvedDescription
    ensures Classify(st.severity) == Resolved && !st.IsActive()
  {
    HealthCheckStatus(toFaultFacetType(observer), 0.0, "resolved")
  }

  /** A value written into the description document. */
  datatype DescriptionValue = FacetValue(facet: FaultFacetType) | TextValue(text: string) | SeverityValue(severity: real)

  /** One named field of the description document. */
  datatype DescriptionField = DescriptionField(name: string, value: DescriptionValue)

  /** The value of the first field named `name`, if any. */
  function Lookup(fields: seq<DescriptionField>, name: string): (r: Option<DescriptionValue>)
    ensures r.Some? <==> exists i | 0 <= i < |fields| :: fields[i].name == name
    ensures r.Some? ==> exists i | 0 <= i < |fields| ::
      && fields[i].name == name && r.value == fields[i].value
      && forall j | 0 <= j < i :: fields[j].name != name
  {
    if |fields| == 0 then None
    else if fields[0].name == name then Some(fields[0].value)
    else Lookup(fields[1..], name)
  }

  /** Names of the fields, in order. */
  function FieldNames(fields: seq<DescriptionField>): seq<string>
  {
    seq(|fields|, i requires 0 <= i < |fields| => fields[i].name)
  }

  /**
   * Appends the status to a document under construction: the fields `type`,
   * `description` and `severity`, in that order, after whatever the builder
   * already holds.
   */
  function AppendDescription(st: HealthCheckStatus, builder: seq<DescriptionField>): (r: seq<DescriptionField>)
    ensures |r| == |builder| + 3 && r[..|builder|] == builder
    ensures FieldNames(r[|builder|..]) == ["type", "description", "severity"]
    ensures r[|builder|].value == FacetValue(st.facetType)
    ensures r[|builder| + 1].value == TextValue(st.description)
    ensures r[|builder| + 2].value == SeverityValue(st.severity)
  {
    builder + [
      DescriptionField("type", FacetValue(st.facetType)),
      DescriptionField("description", TextValue(st.description)),
      DescriptionField("severity", SeverityValue(st.severity))
    ]
  }

  /** Reads a status back from a description document, by field name. */
  function ParseDescription(fields: seq<DescriptionField>): Option<HealthCheckStatus> {
    match (Lookup(fields, "type"), Lookup(fields, "description"), Lookup(fields, "severity"))
    case (Some(FacetValue(t)), Some(TextValue(d)), Some(SeverityValue(s))) => Some(HealthCheckStatus(t, s, d))
    case _ => None
  }

  /** The description document of a status determines the status: reading it back gives the status again. */
  lemma DescriptionRoundTrip(st: HealthCheckStatus)
    ensures ParseDescription(AppendDescription(st, [])) == Some(st)
  {
    var doc := AppendDescription(st, []);
    assert doc[1..][1..] == [DescriptionField("severity", SeverityValue(st.severity))];
    assert Lookup(doc, "type") == Some(FacetValue(st.facetType));
    assert Lookup(doc, "description") == Lookup(doc[1..], "description");
    assert Lookup(doc, "severity") == Lookup(doc[1..][1..], "severity");
  }
}

=== FILE: telemetry_keys.dfy ===
/**
 * Deciding whether a query's execution is recorded in the telemetry store,
 * and shaping the key it is recorded under.
 *
 * Each request overload refuses, in this order and before the rate limiter
 * is asked: a request carrying encryption information, then a namespace that
 * is an FLE2 state collection. The rate limiter refuses when sampling is
 * off, without touching its sliding window; otherwise the window decides.
 * Only then is the key built; redaction that meets an FLE payload yields no
 * key, any other error propagates.
 *
 * Redaction of a sub-document, the sliding window and the request parsers
 * are defined outside this model and appear as parameters or inputs.
 */
module TelemetryKeys {
  import opened Wrappers
  import opened Bson

  /** The string every non-document field of a find key is replaced by. */
  const RedactedLiteral: string := "###"

  /** A namespace, with the catalog's verdict on whether it is an FLE2 state (metadata) collection. */
  datatype NamespaceString = NamespaceString(text: string, isFLE2StateCollection: bool)

  /** What the aggregate overload reads of its request; each pipeline stage is a document. */
  datatype AggregateCommandRequest = AggregateCommandRequest(
    hasEncryptionInformation: bool,
    nss: NamespaceString,
    pipeline: seq<Doc>,
    readConcern: Option<Doc>)

  /** What the find overload reads of its request; `serialized` is the request as a document. */
  datatype FindCommandRequest = FindCommandRequest(
    hasEncryptionInformation: bool,
    serialized: Doc,
    readConcern: Option<Doc>)

  /** The client's application name, present when the client sent metadata. */
  datatype OperationContext = OperationContext(applicationName: Option<string>)

  /** Redaction of a document; it may raise, in particular on an FLE payload. */
  type Redactor = Doc -> Result<Doc, ErrorCode>

  /**
   * The rate limiter: the configured sampling rate and the state `W` of its
   * sliding window. Asking the window for a verdict may change that state.
   */
  datatype RateLimiter<W> = RateLimiter(samplingRate: int, window: W)

  /** The sliding window: a verdict and the window's next state. */
  type SlidingWindow<!W> = W -> (bool, W)

  predicate IsTelemetryEnabled<W>(rl: RateLimiter<W>) {
    rl.samplingRate > 0
  }

  /**
   * The global gate: when telemetry is disabled the answer is no and the
   * window is not asked; otherwise the window's verdict is the answer.
   */
  function ShouldCollect<W>(rl: RateLimiter<W>, slide: SlidingWindow<W>): (r: (bool, RateLimiter<W>))
    ensures r.1.samplingRate == rl.samplingRate
    ensures r.0 <==> rl.samplingRate > 0 && slide(rl.window).0
    ensures r.1.window == if rl.samplingRate > 0 then slide(rl.window).1 else rl.window
  {
    if !IsTelemetryEnabled(rl) then (false, rl)
    else
      var (allowed, window') := slide(rl.window);
      (allowed, rl.(window := window'))
  }

  /**
   * One pipeline stage of an aggregate key: the stage's first element must
   * hold a document (uassert 10065 otherwise, which is not caught), and the
   * stage appears as `{stage: {<name>: <redacted spec>}}`.
   */
  function StageEntry(stage: Doc, redact: Redactor): (r: Result<Field, ErrorCode>)
    ensures (|stage| == 0 || !IsABSONObj(stage[0].value)) ==> r == Failure(Location(ExpectedObjectLocation))
    ensures |stage| > 0 && IsABSONObj(stage[0].value) ==>
      match redact(EmbeddedDoc(stage[0].value))
      case Success(spec) => r == Success(Field("stage", Object([Field(stage[0].name, Object(spec))])))
      case Failure(e) => r == Failure(e)
  {
    if |stage| == 0 || !IsABSONObj(stage[0].value) then Failure(Location(ExpectedObjectLocation))
    else match redact(EmbeddedDoc(stage[0].value))
      case Failure(e) => Failure(e)
      case Success(spec) => Success(Field("stage", Object([Field(stage[0].name, Object(spec))])))
  }

  /**
   * One field of a find key: a field holding a document keeps its name and
   * the redacted document (an array is appended as an object); every other
   * field keeps its name and its value becomes "###".
   */
  function FindEntry(entry: Field, redact: Redactor): (r: Result<Field, ErrorCode>)
    ensures r.Success? ==> r.value.name == entry.name
    ensures !IsABSONObj(entry.value) ==> r == Success(Field(entry.name, Str(RedactedLiteral)))
    ensures IsABSONObj(entry.value) ==>
      match redact(EmbeddedDoc(entry.value))
      case Success(d) => r == Success(Field(entry.name, Object(d)))
      case Failure(e) => r == Failure(e)
  {
    if IsABSONObj(entry.value) then
      match redact(EmbeddedDoc(entry.value))
      case Success(d) => Success(Field(entry.name, Object(d)))
      case Failure(e) => Failure(e)
    else Success(Field(entry.name, Str(RedactedLiteral)))
  }

  /** The fields every key ends with: the namespace, then the read concern and the application name when present. */
  function ContextFields(nss: string, readConcern: Option<Doc>, opCtx: OperationContext): (fields: Doc)
    ensures |fields| >= 1 && fields[0] == Field("namespace", Str(nss))
    ensures |fields| == 1 + (if readConcern.Some? then 1 else 0) + (if opCtx.applicationName.Some? then 1 else 0)
    ensures readConcern.Some? ==> fields[1] == Field("readConcern", Object(readConcern.value))
    ensures opCtx.applicationName.Some? ==> fields[|fields| - 1] == Field("applicationName", Str(opCtx.applicationName.value))
  {
    [Field("namespace", Str(nss))]
    + (if readConcern.Some? then [Field("readConcern", Object(readConcern.value))] else [])
    + (if opCtx.applicationName.Some? then [Field("applicationName", Str(opCtx.applicationName.value))] else [])
  }

  /**
   * The key of an aggregate: `pipeline`, an array holding one entry per
   * stage in order, followed by the context fields. It fails exactly when
   * some stage fails, with the error of the first stage that fails.
   */
  function AggregateKey(request: AggregateCommandRequest, opCtx: OperationContext, redact: Redactor): (r: Result<Doc, ErrorCode>)
    ensures r.Success? <==> forall i | 0 <= i < |request.pipeline| :: StageEntry(request.pipeline[i], redact).Success?
    ensures r.Success? ==> exists stages: seq<Field> ::
      && |stages| == |request.pipeline|
      && (forall i | 0 <= i < |stages| :: StageEntry(request.pipeline[i], redact) == Success(stages[i]))
      && r.value == [Field("pipeline", Array(stages))] + ContextFields(request.nss.text, request.readConcern, opCtx)
    ensures r.Failure? ==> exists i | 0 <= i < |request.pipeline| ::
      && StageEntry(request.pipeline[i], redact) == Failure(r.error)
      && forall j | 0 <= j < i :: StageEntry(request.pipeline[j], redact).Success?
  {
    match MapAll(request.pipeline, (stage: Doc) => StageEntry(stage, redact))
    case Failure(e) => Failure(e)
    case Success(stages) =>
      Success([Field("pipeline", Array(stages))] + ContextFields(request.nss.text, request.readConcern, opCtx))
  }

  /**
   * The key of a find: `find`, a document holding one entry per field of the
   * serialised request in order, followed by the context fields. The fields
   * are appended to the outer builder while the `find` sub-builder, which
   * shares its buffer, is open, so they land inside `find`. It fails
   * exactly when some field fails, with the error of the first field that fails.
   */
  function FindKey(request: FindCommandRequest, collection: NamespaceString, opCtx: OperationContext, redact: Redactor): (r: Result<Doc, ErrorCode>)
    ensures r.Success? <==> forall i | 0 <= i < |request.serialized| :: FindEntry(request.serialized[i], redact).Success?
    ensures r.Success? ==> exists entries: seq<Field> ::
      && |entries| == |request.serialized|
      && (forall i | 0 <= i < |entries| :: FindEntry(request.serialized[i], redact) == Success(entries[i]))
      && r.value == [Field("find", Object(entries))] + ContextFields(collection.text, request.readConcern, opCtx)
    ensures r.Failure? ==> exists i | 0 <= i < |request.serialized| ::
      && FindEntry(request.serialized[i], redact) == Failure(r.error)
      && forall j | 0 <= j < i :: FindEntry(request.serialized[j], redact).Success?
  {
    match MapAll(request.serialized, (entry: Field) => FindEntry(entry, redact))
    case Failure(e) => Failure(e)
    case Success(entries) =>
      Success([Field("find", Object(entries))] + ContextFields(collection.text, request.readConcern, opCtx))
  }

  /** The `catch` around key building: an FLE payload met while redacting means no key; any other error propagates. */
  function CatchFlePayload(built: Result<Doc, ErrorCode>): (r: Result<Option<Doc>, ErrorCode>)
    ensures built.Success? ==> r == Success(Some(built.value))
    ensures built == Failure(EncounteredFLEPayloadWhileRedacting) ==> r == Success(None)
    ensures built.Failure? && built.error != EncounteredFLEPayloadWhileRedacting ==> r == Failure(built.error)
  {
    match built
    case Success(key) => Success(Some(key))
    case Failure(EncounteredFLEPayloadWhileRedacting) => Success(None)
    case Failure(e) => Failure(e)
  }

  /** `shouldCollectTelemetry` for an aggregate request. */
  function ShouldCollectAggregate<W>(
    request: AggregateCommandRequest, opCtx: OperationContext,
    rl: RateLimiter<W>, slide: SlidingWindow<W>, redact: Redactor): (r: (Result<Option<Doc>, ErrorCode>, RateLimiter<W>))
    ensures request.hasEncryptionInformation || request.nss.isFLE2StateCollection ==> r == (Success(None), rl)
    ensures r.1 == if request.hasEncryptionInformation || request.nss.isFLE2StateCollection then rl else ShouldCollect(rl, slide).1
    ensures (r.0.Success? && r.0.value.Some?) <==>
      && !request.hasEncryptionInformation && !request.nss.isFLE2StateCollection
      && ShouldCollect(rl, slide).0
      && AggregateKey(request, opCtx, redact).Success?
    ensures r.0.Success? && r.0.value.Some? ==> AggregateKey(request, opCtx, redact) == Success(r.0.value.value)
    ensures r.0.Failure? ==> r.0.error != EncounteredFLEPayloadWhileRedacting && AggregateKey(request, opCtx, redact) == Failure(r.0.error)
    ensures r.0.Failure? <==>
      && !request.hasEncryptionInformation && !request.nss.isFLE2StateCollection
      && ShouldCollect(rl, slide).0
      && AggregateKey(request, opCtx, redact).Failure?
      && AggregateKey(request, opCtx, redact).error != EncounteredFLEPayloadWhileRedacting
  {
    if request.hasEncryptionInformation then (Success(None), rl)
    else if request.nss.isFLE2StateCollection then (Success(None), rl)
    else
      var (collect, rl') := ShouldCollect(rl, slide);
      if !collect then (Success(None), rl')
      else (CatchFlePayload(AggregateKey(request, opCtx, redact)), rl')
  }

  /** `shouldCollectTelemetry` for a find request against `collection`. */
  function ShouldCollectFind<W>(
    request: FindCommandRequest, collection: NamespaceString, opCtx: OperationContext,
    rl: RateLimiter<W>, slide: SlidingWindow<W>, redact: Redactor): (r: (Result<Option<Doc>, ErrorCode>, RateLimiter<W>))
    ensures request.hasEncryptionInformation || collection.isFLE2StateCollection ==> r == (Success(None), rl)
    ensures r.1 == if request.hasEncryptionInformation || collection.isFLE2StateCollection then rl else ShouldCollect(rl, slide).1
    ensures (r.0.Success? && r.0.value.Some?) <==>
      && !request.hasEncryptionInformation && !collection.isFLE2StateCollection
      && ShouldCollect(rl, slide).0
      && FindKey(request, collection, opCtx, redact).Success?
    ensures r.0.Success? && r.0.value.Some? ==> FindKey(request, collection, opCtx, redact) == Success(r.0.value.value)
    ensures r.0.Failure? ==> r.0.error != EncounteredFLEPayloadWhileRedacting && FindKey(request, collection, opCtx, redact) == Failure(r.0.error)
    ensures r.0.Failure? <==>
      && !request.hasEncryptionInformation && !collection.isFLE2StateCollection
      && ShouldCollect(rl, slide).0
      && FindKey(request, collection, opCtx, redact).Failure?
      && FindKey(request, collection, opCtx, redact).error != EncounteredFLEPayloadWhileRedacting
  {
    if request.hasEncryptionInformation then (Success(None), rl)
    else if collection.isFLE2StateCollection then (Success(None), rl)
    else
      var (collect, rl') := ShouldCollect(rl, slide);
      if !collect then (Success(None), rl')
      else (CatchFlePayload(FindKey(request, collection, opCtx, redact)), rl')
  }

  /**
   * `shouldCollectTelemetry` for an already built key: an empty key is
   * refused without asking the rate limiter; otherwise the key comes back
   * unchanged exactly when the rate limiter allows it.
   */
  function ShouldCollectKey<W>(telemetryKey: Doc, rl: RateLimiter<W>, slide: SlidingWindow<W>): (r: (Option<Doc>, RateLimiter<W>))
    ensures |telemetryKey| == 0 ==> r == (None, rl)
    ensures r.1 == if |telemetryKey| == 0 then rl else ShouldCollect(rl, slide).1
    ensures r.0.Some? ==> r.0.value == telemetryKey
    ensures r.0.Some? <==> |telemetryKey| > 0 && rl.samplingRate > 0 && slide(rl.window).0
  {
    if |telemetryKey| == 0 then (None, rl)
    else
      var (collect, rl') := ShouldCollect(rl, slide);
      if !collect then (None, rl') else (Some(telemetryKey), rl')
  }

  /**
   * Two find requests whose serialised fields have the same names and hold
   * the same documents, differing at most in their non-document values,
   * get the same key: literal values never reach a find key.
   */
  lemma {:induction false} FindKeyErasesLiterals(
    a: FindCommandRequest, b: FindCommandRequest, collection: NamespaceString, opCtx: OperationContext, redact: Redactor)
    requires a.readConcern == b.readConcern
    requires |a.serialized| == |b.serialized|
    requires forall i | 0 <= i < |a.serialized| ::
      && a.serialized[i].name == b.serialized[i].name
      && IsABSONObj(a.serialized[i].value) == IsABSONObj(b.serialized[i].value)
      && (IsABSONObj(a.serialized[i].value) ==> EmbeddedDoc(a.serialized[i].value) == EmbeddedDoc(b.serialized[i].value))
    ensures FindKey(a, collection, opCtx, redact) == FindKey(b, collection, opCtx, redact)
  {
    var f := (entry: Field) => FindEntry(entry, redact);
    forall i | 0 <= i < |a.serialized| ensures f(a.serialized[i]) == f(b.serialized[i]) {
    }
    MapAllPointwise(a.serialized, b.serialized, f);
  }
}

=== FILE: telemetry_store.dfy ===
/**
 * The telemetry store, reduced to a map from key to metrics with the size
 * budget and partition count it was created with, and the manager that
 * holds the current store and swaps it for a fresh one on reset. The
 * manager's locks and the store's partitions and eviction are not modelled:
 * every operation is one sequential step.
 */
module TelemetryStore {
  import opened Wrappers
  import opened Bson

  /**
   * One aggregated metric. How it summarises its samples (sum, min, max,
   * ...) is defined outside this model; every such summary is a function of
   * the samples aggregated so far, which is what is kept.
   */
  datatype AggregatedMetric = AggregatedMetric(samples: seq<int>)

  function Aggregate(m: AggregatedMetric, sample: int): AggregatedMetric {
    AggregatedMetric(m.samples + [sample])
  }

  datatype TelemetryMetrics = TelemetryMetrics(
    execCount: nat,
    lastExecutionMicros: int,
    queryOptMicros: AggregatedMetric,
    queryExecMicros: AggregatedMetric,
    docsReturned: AggregatedMetric,
    docsScanned: AggregatedMetric,
    keysScanned: AggregatedMetric)

  /** The metrics of a key seen for the first time. */
  const DefaultMetrics := TelemetryMetrics(0, 0, AggregatedMetric([]), AggregatedMetric([]),
    AggregatedMetric([]), AggregatedMetric([]), AggregatedMetric([]))

  datatype Store = Store(size: nat, numPartitions: nat, entries: map<Doc, TelemetryMetrics>)

  /** Holds the store currently in use. */
  datatype StoreManager = StoreManager(current: Store)

  /** What one execution reports about itself. */
  datatype OpDebug = OpDebug(
    planningMicros: int,
    nreturned: int,
    docsExamined: Option<int>,
    keysExamined: Option<int>,
    executionMicros: int)

  /** A fresh store with the given budget and partition count and no entries. */
  function NewStore(size: nat, numPartitions: nat): (s: Store)
    ensures s.size == size && s.numPartitions == numPartitions && s.entries == map[]
  {
    Store(size, numPartitions, map[])
  }

  /**
   * Installs a fresh store with the current store's size and partition
   * count, and hands back the store that was installed before.
   */
  function ResetTelemetryStore(m: StoreManager): (r: (Store, StoreManager))
    ensures r.0 == m.current
    ensures r.1.current.size == m.current.size && r.1.current.numPartitions == m.current.numPartitions
    ensures r.1.current.entries == map[]
  {
    var newStore := NewStore(m.current.size, m.current.numPartitions);
    (m.current, StoreManager(newStore))
  }

  /** The metrics kept for `key`, or the defaults if it has none yet. */
  function MetricsOf(s: Store, key: Doc): TelemetryMetrics {
    if key in s.entries then s.entries[key] else DefaultMetrics
  }

  /** Folds one execution into a key's metrics. */
  function Record(metrics: TelemetryMetrics, op: OpDebug, isExec: bool): TelemetryMetrics {
    var counted := if isExec then metrics.(execCount := metrics.execCount + 1,
                                           queryOptMicros := Aggregate(metrics.queryOptMicros, op.planningMicros))
                   else metrics;
    counted.(
      docsReturned := Aggregate(counted.docsReturned, op.nreturned),
      docsScanned := Aggregate(counted.docsScanned, op.docsExamined.GetOr(0)),
      keysScanned := Aggregate(counted.keysScanned, op.keysExamined.GetOr(0)),
      lastExecutionMicros := op.executionMicros,
      queryExecMicros := Aggregate(counted.queryExecMicros, op.executionMicros))
  }

  /**
   * Records one execution under `key` in the current store: the entry is
   * created with default metrics if absent, then updated. Only `key`'s entry
   * changes.
   */
  function CollectTelemetry(m: StoreManager, key: Doc, op: OpDebug, isExec: bool): (m': StoreManager)
    ensures m'.current.size == m.current.size && m'.current.numPartitions == m.current.numPartitions
    ensures m'.current.entries.Keys == m.current.entries.Keys + {key}
    ensures forall k | k in m.current.entries && k != key :: m'.current.entries[k] == m.current.entries[k]
    ensures var before, after := MetricsOf(m.current, key), m'.current.entries[key];
      && after.execCount == before.execCount + (if isExec then 1 else 0)
      && after.queryOptMicros.samples == before.queryOptMicros.samples + (if isExec then [op.planningMicros] else [])
      && after.lastExecutionMicros == op.executionMicros
      && after.queryExecMicros.samples == before.queryExecMicros.samples + [op.executionMicros]
      && after.docsReturned.samples == before.docsReturned.samples + [op.nreturned]
      && after.docsScanned.samples == before.docsScanned.samples + [if op.docsExamined.Some? then op.docsExamined.value else 0]
      && after.keysScanned.samples == before.keysScanned.samples + [if op.keysExamined.Some? then op.keysExamined.value else 0]
  {
    var s := m.current;
    var metrics := if key in s.entries then s.entries[key] else DefaultMetrics;
    StoreManager(s.(entries := s.entries[key := Record(metrics, op, isExec)]))
  }

  /** One call of `collectTelemetry`. */
  datatype Execution = Execution(key: Doc, op: OpDebug, isExec: bool)

  /** Collects a sequence of executions, oldest first. */
  function CollectAll(m: StoreManager, executions: seq<Execution>): StoreManager
    decreases |executions|
  {
    if |executions| == 0 then m
    else
      var last := executions[|executions| - 1];
      CollectTelemetry(CollectAll(m, executions[..|executions| - 1]), last.key, last.op, last.isExec)
  }

  /** How many of the executions are counted executions under `key`. */
  function ExecCalls(executions: seq<Execution>, key: Doc): nat {
    if |executions| == 0 then 0
    else
      var last := executions[|executions| - 1];
      ExecCalls(executions[..|executions| - 1], key) + (if last.key == key && last.isExec then 1 else 0)
  }

  /** The keys the executions were collected under. */
  function KeysOf(executions: seq<Execution>): (keys: set<Doc>)
    ensures forall i | 0 <= i < |executions| :: executions[i].key in keys
    ensures forall k | k in keys :: exists i | 0 <= i < |executions| :: executions[i].key == k
  {
    set i | 0 <= i < |executions| :: executions[i].key
  }

  /**
   * After collecting a sequence of executions, the store has an entry for
   * every key it had and every key collected, and no other; each key's
   * execution count has grown by the number of counted executions under it;
   * the budget and partition count are unchanged.
   */
  lemma {:induction false} CollectAllCounts(m: StoreManager, executions: seq<Execution>, key: Doc)
    ensures var m' := CollectAll(m, executions);
      && m'.current.entries.Keys == m.current.entries.Keys + KeysOf(executions)
      && MetricsOf(m'.current, key).execCount == MetricsOf(m.current, key).execCount + ExecCalls(executions, key)
      && m'.current.size == m.current.size && m'.current.numPartitions == m.current.numPartitions
  {
    if |executions| > 0 {
      var prefix := executions[..|executions| - 1];
      var last := executions[|executions| - 1];
      CollectAllCounts(m, prefix, key);
      assert KeysOf(executions) == KeysOf(prefix) + {last.key} by {
        forall k | k in KeysOf(executions) ensures k in KeysOf(prefix) + {last.key} {
          var i :| 0 <= i < |executions| && executions[i].key == k;
          if i < |executions| - 1 {
            assert prefix[i].key == k;
          }
        }
      }
    }
  }

  /**
   * A reset hands back everything collected since the previous reset: the
   * returned store holds exactly the keys collected, each with its count of
   * executions, while the newly installed store is empty.
   */
  lemma ResetReturnsCollected(m: StoreManager, executions: seq<Execution>, key: Doc)
    requires m.current.entries == map[]
    ensures var reset := ResetTelemetryStore(CollectAll(m, executions));
      && reset.0.entries.Keys == KeysOf(executions)
      && MetricsOf(reset.0, key).execCount == ExecCalls(executions, key)
      && reset.1.current == NewStore(m.current.size, m.current.numPartitions)
  {
    CollectAllCounts(m, executions, key);
  }

  /**
   * Keys are compared by their whole content: collecting once under each of
   * two different keys into an empty store leaves two entries, each counted
   * once.
   */
  lemma DistinctKeysCountedApart(m: StoreManager, k1: Doc, k2: Doc, op: OpDebug)
    requires m.current.entries == map[] && k1 != k2
    ensures var m' := CollectTelemetry(CollectTelemetry(m, k1, op, true), k2, op, true);
      && m'.current.entries.Keys == {k1, k2}
      && m'.current.entries[k1].execCount == 1 && m'.current.entries[k2].execCount == 1
  {
  }

  /** Two read concerns that differ only in a timestamp's value give two different keys. */
  lemma ReadConcernTimestampsGiveDistinctKeys()
    ensures [Field("readConcern", Object([Field("afterClusterTime", Scalar(17, [1, 0, 0, 0, 1, 0, 0, 0]))]))]
         != [Field("readConcern", Object([Field("afterClusterTime", Scalar(17, [1, 0, 0, 0, 2, 0, 0, 0]))]))]
  {
  }
}

=== FILE: wrappers.dfy ===
/** Option and Result values shared by the models below, and mapping a fallible step over a sequence. */
module Wrappers {

  /** A value that may be absent, as `boost::optional` is in the server code. */
  datatype Option<+T> = None | Some(value: T) {

    /** The carried value, or `default` when there is none. */
    function GetOr(default: T): T {
      match this
      case Some(v) => v
      case None => default
    }
  }

  /** Either a value or the error a `uassert` raised while computing it. */
  datatype Result<+T, +E> = Success(value: T) | Failure(error: E)

  /** The result of a check that either passes or raises an error. */
  datatype Outcome<+E> = Pass | Fail(error: E)

  /**
   * Applies `f` to each element from left to right, as a loop whose body may
   * throw: the first failure is the result, and later elements are never
   * looked at.
   */
  function MapAll<A, B, E>(xs: seq<A>, f: A -> Result<B, E>): (r: Result<seq<B>, E>)
    ensures r.Success? <==> forall i | 0 <= i < |xs| :: f(xs[i]).Success?
    ensures r.Success? ==> |r.value| == |xs| && forall i | 0 <= i < |xs| :: f(xs[i]) == Success(r.value[i])
    ensures r.Failure? ==> exists i | 0 <= i < |xs| ::
      f(xs[i]) == Failure(r.error) && forall j | 0 <= j < i :: f(xs[j]).Success?
  {
    if |xs| == 0 then Success([])
    else match f(xs[0])
      case Failure(e) => Failure(e)
      case Success(y) =>
        match MapAll(xs[1..], f)
        case Failure(e) =>
          assert exists i | 0 <= i < |xs| :: f(xs[i]) == Failure(e) && forall j | 0 <= j < i :: f(xs[j]).Success? by {
            var i :| 0 <= i < |xs[1..]| && f(xs[1..][i]) == Failure(e) && forall j | 0 <= j < i :: f(xs[1..][j]).Success?;
            assert f(xs[i + 1]) == Failure(e) && forall j | 0 <= j < i + 1 :: f(xs[j]).Success?;
          }
          Failure(e)
        case Success(ys) => Success([y] + ys)
  }

  /** Mapping two sequences on which `f` agrees element by element gives the same result. */
  lemma {:induction false} MapAllPointwise<A, B, E>(xs: seq<A>, ys: seq<A>, f: A -> Result<B, E>)
    requires |xs| == |ys|
    requires forall i | 0 <= i < |xs| :: f(xs[i]) == f(ys[i])
    ensures MapAll(xs, f) == MapAll(ys, f)
  {
    if |xs| > 0 {
      assert f(xs[0]) == f(ys[0]);
      MapAllPointwise(xs[1..], ys[1..], f);
    }
  }
}
